=== FILE: README.md ===
# InstaAudit front end: a Dafny model

The application asks for a social-media username, a niche description and a
platform. It sends them to a hosted text-generation service as a templated
prompt with a fixed JSON response schema, and it shows the returned audit as
a scored report. A lock overlay ("follow to unlock") and a cookie banner gate
access. Both flags are kept in the browser's key/value storage.

The model covers the deterministic logic of five files:

- `types.dfy` (module `Types`) holds the value types: `Language`, `Platform`,
  `Severity`, `Issue`, `ActionItem`, `ProfileAudit` and `AnalysisResult`.
  Each string-literal union becomes an enum, with its literals and a parser
  that accepts exactly those literals.
- `response_schema.dfy` (module `ResponseSchema`) holds the `analysisSchema`
  descriptor as data. It also holds a JSON value type, a conformance predicate
  and the JSON form of an `AnalysisResult`. The schema is proved to describe
  the result type: every result, written as JSON, conforms to it.
- `gemini_service.dfy` (module `GeminiService`) holds the request builder:
  the language and platform names, the prompt and system-instruction templates,
  and the request record. It also holds the branch on `response.text`. Template
  literals are modelled as `Interpolate(pieces, values)`, so the prompt is
  its exact text. The network call (`send`) and `JSON.parse` (`parse`) are
  function parameters.
- `results.dfy` (module `Results`) holds the result-view helpers: score colour
  bands, the ring offset, the severity badge, solution numbering and the
  hashtag display transform. It also holds the per-element card lists.
- `analysis_form.dfy` (module `AnalysisForm`) holds the form. Its fields live
  in the class `FormState`, whose setters change them in place. The submit
  guard, the disabled predicate and `isRtl` are pure.
- `app.dfy` (module `App`) holds the top-level state machine as the class
  `AppState`. Its fields are `lang`, `result`, `loading`, `error`,
  `isLocked` and `showCookies`, plus the storage as a `map<string, string>`.
  The methods are the startup effect, the language switch and the four
  handlers. `handleAnalyze` is split into `StartAnalyze` and `FinishAnalyze`,
  and `FinishAnalyze` takes the outcome of the service call. The object
  invariant `Valid()` says that each flag is cleared or raised only as the store allows. The lock is
  cleared only once "true" is stored under `instaAudit_unlocked`. The banner is
  up only while `instaAudit_cookies` does not hold "true".
- `wrappers.dfy` and `text.dfy` hold `Option`/`Result` and the substring
  facts used by the template lemmas.

Notes on what the code does:

- The storage keys are `instaAudit_unlocked` and `instaAudit_cookies`.
- The submit guard does not trim: a whitespace-only field passes.
- The parsed payload is cast without validation, and no field-presence check
  is added. Parsing is an abstract `parse` function that yields a well-formed
  result or an error (see "## Left out").
- `handleAnalyze` keeps `result` when a request starts, and it has no check
  that a completing request is still current. So a result can be present
  together with an error or a running request when the handlers are called
  freely. The user interface prevents this. The form is hidden while a
  result is shown, and the button is disabled while loading. `Exclusive()` states
  this invariant, and the protocol methods `SubmitFromForm`, `Settle` and
  `ResetFromResults` keep it.
- The failure message uses the language the request started in. This is
  `translations[lang]` as seen by the closure of that render.

## Model

| member | source | states |
|---|---|---|
| Types.ParseLanguage | types.ts:1 | a string parses to a language only if it is that language's literal |
| Types.ParsePlatform | types.ts:2 | a string parses to a platform only if it is that platform's literal |
| Types.ParseSeverity | types.ts:7 | a string parses to a severity only if it is that severity's literal |
| Types.CodesRoundTrip | types.ts:1-7 | every literal of the three union types parses back to its own value, so each type has exactly its listed values |
| ResponseSchema.SeverityEnumIsSeverity | services/geminiService.ts:28 | the schema's severity enum admits a string iff it is one of the severity literals high/medium/low |
| ResponseSchema.AnalysisSchemaRequiredDeclared | services/geminiService.ts:6-52 | every name in every `required` list of the schema (top level, profile_audit, issue, action item) is a declared property of that object |
| ResponseSchema.IssueConforms | services/geminiService.ts:23-31 | every Issue written as JSON meets the issue item schema, severity enum included |
| ResponseSchema.ProfileAuditConforms | services/geminiService.ts:11-19 | every profile audit written as JSON meets the profile_audit schema with its three required strings |
| ResponseSchema.ResultConformsToSchema | services/geminiService.ts:6-52 | every AnalysisResult written as JSON conforms to the schema, and its members are exactly the six required names |
| GeminiService.LangName | services/geminiService.ts:61 | the name is "Arabic" iff 'ar', "Hebrew" iff 'he', "English" iff 'en' |
| GeminiService.PlatformName | services/geminiService.ts:62 | the name is "Instagram" iff 'instagram' and "TikTok" iff 'tiktok' |
| GeminiService.InterpolateContains | services/geminiService.ts:64-79 | every value interpolated into a template literal occurs verbatim in the resulting string |
| GeminiService.InterpolateLength | services/geminiService.ts:64-79 | a filled-in template literal is exactly as long as its pieces and its values together |
| GeminiService.PromptText | services/geminiService.ts:64-79 | the prompt is the fixed template plus the username, the niche, the language name and five copies of the platform name, with nothing else added or dropped |
| GeminiService.PromptMentions | services/geminiService.ts:64-79 | the prompt contains the username and the niche verbatim, the platform name and the language name |
| GeminiService.SystemInstruction | services/geminiService.ts:90 | the instruction is the fixed preamble, then the language name, then a final '.' |
| GeminiService.SystemInstructionDeterminesLanguage | services/geminiService.ts:90 | the instruction names its language, and different languages give different instructions |
| GeminiService.BuildRequest | services/geminiService.ts:81-93 | the request carries the prompt, the system instruction, the analysis schema, JSON mime type, temperature 0.7, the fixed model and the user role |
| GeminiService.HandleResponse | services/geminiService.ts:95-99 | an absent or empty text fails with "No data returned from Gemini."; a non-empty text yields exactly the parser's result or error |
| GeminiService.AnalyzeProfile | services/geminiService.ts:54-104 | a failed call is rethrown with the same error; a successful call's text goes through the response branch (absent or empty fails with "No data returned from Gemini.", non-empty yields the parser's result or error); a success always comes from a non-empty text passed through the parser |
| Results.ScoreColor | components/Results.tsx:16-20 | emerald iff score >= 80, yellow iff 50 <= score < 80, red iff score < 50 |
| Results.ScoreStroke | components/Results.tsx:22-26 | the same three bands with the stroke classes |
| Results.ColorMatchesStroke | components/Results.tsx:16-26 | the number colour and the ring stroke always fall in the same band |
| Results.RingOffset | components/Results.tsx:48 | the offset is the unfilled share 440·(100 − score)/100 and stays in [0, 440] for scores in [0, 100] |
| Results.RingOffsetShape | components/Results.tsx:48 | the offset is 440 at score 0, 0 at score 100, and never increases with the score |
| Results.SeverityLabel | components/Results.tsx:107 | 'high' shows t.high, 'medium' shows t.medium, any other severity shows t.low |
| Results.ProblemCards | components/Results.tsx:96-113 | one card per problem, in order, with its title, description and severity badge |
| Results.NumberFrom | components/Results.tsx:126-130 | one card per solution, in order, numbered consecutively from the given first number |
| Results.SolutionCards | components/Results.tsx:126-130 | the solution cards are numbered 1..n in list order and carry each step and details unchanged |
| Results.RemoveFirst | components/Results.tsx:153 | replacing '#' by '' removes only the first '#' and keeps every other character in place; without '#' the tag is unchanged |
| Results.DisplayTagShape | components/Results.tsx:153 | the displayed tag starts with '#'; a tag without '#' becomes '#' + tag; a tag with '#' keeps its length and its count of '#' |
| Results.DisplayTag | components/Results.tsx:153 | a tag that already starts with '#' is shown unchanged; a tag without '#' is shown with one '#' in front |
| Results.HashtagChips | components/Results.tsx:151-155 | one display tag per hashtag, in order, none dropped |
| AnalysisForm.SubmitDisabled | components/AnalysisForm.tsx:119 | the button is disabled iff loading or the submit guard fails, so an enabled button implies the guard |
| AnalysisForm.CanSubmit | components/AnalysisForm.tsx:23 | the submit guard holds iff both the username and the niche are non-empty |
| AnalysisForm.WhitespaceIsAccepted | components/AnalysisForm.tsx:23 | any non-empty username and niche made only of whitespace pass the guard and leave the button enabled; nothing is trimmed |
| AnalysisForm.RtlLanguages | components/AnalysisForm.tsx:28 | right-to-left holds exactly for Arabic and Hebrew |
| AnalysisForm.IsRtl | components/AnalysisForm.tsx:28 | the form is right-to-left iff the language is not English |
| AnalysisForm.FormState.constructor | components/AnalysisForm.tsx:15-17 | the form starts with empty username and niche and platform 'instagram' |
| AnalysisForm.FormState.SetUsername | components/AnalysisForm.tsx:90 | typing replaces the username and leaves the niche and platform alone |
| AnalysisForm.FormState.SetNiche | components/AnalysisForm.tsx:107 | typing replaces the niche and leaves the username and platform alone |
| AnalysisForm.FormState.SelectPlatform | components/AnalysisForm.tsx:48-63 | a platform button sets its fixed platform; pressing it when already selected changes nothing |
| AnalysisForm.FormState.HandleSubmit | components/AnalysisForm.tsx:21-26 | the call is made iff both fields are non-empty, with exactly the current username, niche and platform |
| AnalysisForm.FormState.Disabled | components/AnalysisForm.tsx:117-119 | the rendered button is disabled iff the disabled predicate holds of the current fields |
| AnalysisForm.PressEnabledSubmit | components/AnalysisForm.tsx:117-119 | pressing an enabled submit button always forwards the current field values |
| App.GetItem | App.tsx:26 | a read yields the stored string iff the key is present, else null |
| App.StoredTrue | App.tsx:27-33 | a flag counts as stored iff its key is present and holds exactly "true" |
| App.EffectGate | App.tsx:24-35 | after the effect the app is locked iff it was locked and "true" is not stored for the unlock key; the banner is up iff it was up or "true" is not stored for the consent key |
| App.EffectIdempotent | App.tsx:24-40 | with the store unchanged, a second run of the effect leaves the flags as the first left them |
| App.StoredFlagsAreFinal | App.tsx:26-35 | with "true" stored for the unlock key, the effect leaves the app unlocked from any prior flags; with "true" stored for the consent key, a hidden banner stays hidden |
| App.TextDirection | App.tsx:39 | the direction is rtl exactly for 'ar' and 'he' and ltr exactly for 'en' |
| App.AppState.constructor | App.tsx:14-22 | the first render has lang 'ar', no result, not loading, no error, locked, and the banner hidden |
| App.AppState.RunEffect | App.tsx:24-40 | the flags move as EffectGate says; afterwards locked iff the unlock key does not hold "true" and the banner is up iff the consent key does not; nothing else changes |
| App.AppState.SelectLanguage | App.tsx:121-123 | the language is set and the effect re-runs only when the language changed |
| App.AppState.HandleUnlock | App.tsx:42-45 | "true" is stored for the unlock key and the lock is cleared; nothing else changes |
| App.AppState.HandleCookieAccept | App.tsx:47-50 | "true" is stored for the consent key and the banner is hidden; nothing else changes |
| App.AppState.StartAnalyze | App.tsx:52-54 | loading is set, the error is cleared, the result is kept, and the request records the current language |
| App.AppState.FinishAnalyze | App.tsx:55-63 | on success the result is the data; on failure the error is the localized message and the result is kept; loading ends false either way |
| App.AppState.HandleAnalyze | App.tsx:52-64 | a full request cycle leaves loading false with the service's data as result, or the localized error and the old result |
| App.AppState.HandleReset | App.tsx:66-69 | the result and the error are cleared and nothing else changes |
| App.AppState.ShowsLockOverlay | App.tsx:77 | the lock overlay renders iff the app is locked |
| App.AppState.ShowsCookieBanner | App.tsx:80 | the banner renders iff its flag is set and the overlay is not shown, so the two never render together |
| App.AppState.ContentBlurred | App.tsx:89-92 | the main content is blurred exactly while the overlay is shown |
| App.AppState.ShowsForm | App.tsx:129 | the form is shown iff there is no result |
| App.AppState.ShowsErrorBanner | App.tsx:133-137 | the error banner is shown iff there is no result and the error is a non-empty string, and only together with the form |
| App.AppState.ShowsResults | App.tsx:141-143 | the results view is shown iff the form is not, and never with the error banner |
| App.ReloadAfterUnlock | App.tsx:26-45 | after unlocking, a reload whose startup effect has run does not show the lock overlay |
| App.FirstRenderLocked | App.tsx:21-29 | the first render of every page load shows the lock overlay, whatever is stored; only the effect clears it |
| App.AppState.SubmitFromForm | components/AnalysisForm.tsx:117-119 | from the shown form, a request starts iff none is running and both fields are non-empty, with the form's values; the lifecycle stays consistent |
| App.AppState.Settle | App.tsx:55-63 | a running request settles to the data with no error, or to the localized error with no result; the lifecycle stays consistent |
| App.AppState.ResetFromResults | App.tsx:66-69 | reset from the results view shows the form with no error banner and no running request |
| App.ReloadAfterCookieAccept | App.tsx:32-50 | after accepting cookies, a reload that reads the store back never shows the banner |

## Left out

- The call to the generation service, the client construction and the API key: the network call is the parameter `send`.
- `JSON.parse` is the parameter `parse`. The model adds no validation of the parsed value.
- HandleResponse, AnalyzeProfile and FinishAnalyze: `parse` can only return a well-formed `AnalysisResult` or an error, so payloads that the unchecked cast lets through are not represented. Text "null", "0" or `""` parses to a falsy value, and `setResult` of it shows the form again with no error. Text "{}" gives a truthy result, and rendering it throws at `data.profile_audit.bio_check` (Results.tsx:75).
- ResultConformsToSchema proves one direction only: every result conforms to the schema. No decoder is modelled, so it is not proved that every conforming JSON value decodes to a result.
- Logging with `console.error` is an effect with no observable state, so it is not modelled.
- `score` is a `real`. JavaScript floating-point rounding in the ring offset, `NaN` and infinities are not modelled.
- Results.SeverityLabel: the severity is an enum, so the "anything else" branch is reached only by `low`. A non-enum string let through by the unchecked cast is not modelled.
- The cookie banner's timers are not modelled: the 1000 ms entrance delay, the 8000 ms auto-accept and the exit-animation delays. They belong to event-loop scheduling.
- The lock overlay's `window.open` is browser I/O. Its unlock step is `HandleUnlock`.
- The hero markup, CSS classes, animations, SVG attributes other than the offset, and the language menu's open/close flag are presentation only.
- The `document.documentElement` writes are not modelled. Only the direction choice is, as `TextDirection`.
- The translation table is not part of this model. `errorText` and `SeverityLabels` stand for its strings.
- App.AppState.HandleAnalyze: it models a request cycle with nothing in between. Interleavings are expressed with `StartAnalyze` and `FinishAnalyze`. React's batching of state updates and the asynchronous suspension are not modelled.
- No lemma says the prompt is free of the codes 'ar', 'en', 'he', 'instagram' and 'tiktok', because the fixed template already contains three of them for every input. It contains 'ar' in "You are" (services/geminiService.ts:65), 'he' in "Niche" (line 69) and 'en' in "potential" (line 73). Only 'instagram' and 'tiktok' depend on the username or the niche.

=== FILE: analysis_form.dfy ===
/** The analysis form: its three fields, the submit guard and the submit
    button's disabled state. `isLoading` and `lang` are inputs from the App. */
module AnalysisForm {
  import opened Wrappers
  import opened Types

  /** The call `onAnalyze(username, niche, platform)`. */
  datatype Submission = Submission(username: string, niche: string, platform: Platform)

  /** `username && niche`: both strings are non-empty (JavaScript truthiness);
      nothing is trimmed. */
  predicate CanSubmit(username: string, niche: string): (ok: bool)
    ensures ok <==> |username| > 0 && |niche| > 0
  {
    username != "" && niche != ""
  }

  /** The submit button's `disabled` expression. */
  function SubmitDisabled(isLoading: bool, username: string, niche: string): (disabled: bool)
    ensures disabled <==> isLoading || !CanSubmit(username, niche)
    ensures !disabled ==> CanSubmit(username, niche)
  {
    isLoading || username == "" || niche == ""
  }

  /** `s` is made only of spaces, tabs and line breaks. */
  predicate AllWhitespace(s: string)
  {
    forall k :: 0 <= k < |s| ==> s[k] in " \t\r\n"
  }

  /** Whitespace counts as content: non-empty fields made only of whitespace pass
      the guard and leave the button enabled, since nothing is trimmed. */
  lemma WhitespaceIsAccepted(username: string, niche: string)
    requires username != "" && niche != ""
    requires AllWhitespace(username) && AllWhitespace(niche)
    ensures CanSubmit(username, niche)
    ensures !SubmitDisabled(false, username, niche)
  {
  }

  /** Right-to-left layout for Arabic and Hebrew. */
  predicate IsRtl(lang: Language): (rtl: bool)
    ensures rtl <==> lang != En
  {
    lang == Ar || lang == He
  }

  lemma RtlLanguages(lang: Language)
    ensures IsRtl(lang) <==> lang != En
  {
  }

  /** The form's own state. */
  class FormState {
    var username: string
    var niche: string
    var platform: Platform

    constructor ()
      ensures username == "" && niche == "" && platform == Instagram
    {
      username := "";
      niche := "";
      platform := Instagram;
    }

    /** The username input's `onChange`. */
    method SetUsername(value: string)
      modifies this
      ensures username == value && niche == old(niche) && platform == old(platform)
    {
      username := value;
    }

    /** The niche textarea's `onChange`. */
    method SetNiche(value: string)
      modifies this
      ensures niche == value && username == old(username) && platform == old(platform)
    {
      niche := value;
    }

    /** A platform button's `onClick`: each button sets its own fixed value, so
        pressing it again changes nothing. */
    method SelectPlatform(choice: Platform)
      modifies this
      ensures platform == choice && username == old(username) && niche == old(niche)
      ensures old(platform) == choice ==> unchanged(this)
    {
      platform := choice;
    }

    /** `handleSubmit`: forwards the current field values, unmodified, exactly
        when the guard holds; it changes no state. */
    method HandleSubmit() returns (call: Option<Submission>)
      ensures call.Some? <==> CanSubmit(username, niche)
      ensures call.Some? ==> call.value == Submission(username, niche, platform)
    {
      if username != "" && niche != "" {
        call := Some(Submission(username, niche, platform));
      } else {
        call := None;
      }
    }

    /** The button as rendered with the App's `isLoading`. */
    function Disabled(isLoading: bool): (disabled: bool)
      reads this
      ensures !disabled ==> CanSubmit(username, niche)
      ensures disabled <==> SubmitDisabled(isLoading, username, niche)
    {
      SubmitDisabled(isLoading, username, niche)
    }
  }

  /** An enabled submit button always forwards the call. */
  method PressEnabledSubmit(form: FormState, isLoading: bool) returns (call: Option<Submission>)
    requires !form.Disabled(isLoading)
    ensures call == Some(Submission(form.username, form.niche, form.platform))
  {
    call := form.HandleSubmit();
  }
}

=== FILE: app.dfy ===
/** The top-level view controller: the lock and cookie flags read from and
    written to a string key/value store, the request lifecycle, and the render
    predicates that decide what is on screen. */
module App {
  import opened Wrappers
  import opened Types
  import GeminiService
  import AnalysisForm

  const UnlockKey: string := "instaAudit_unlocked"
  const CookiesKey: string := "instaAudit_cookies"

  /** `localStorage.getItem(key)`: the stored string, or null. */
  function GetItem(storage: map<string, string>, key: string): (item: Option<string>)
    ensures item.Some? <==> key in storage
    ensures item.Some? ==> item.value == storage[key]
  {
    if key in storage then Some(storage[key]) else None
  }

  /** `localStorage.getItem(key) === 'true'`. */
  predicate StoredTrue(storage: map<string, string>, key: string): (stored: bool)
    ensures stored <==> key in storage && storage[key] == "true"
  {
    GetItem(storage, key) == Some("true")
  }

  /** The two gating flags, `isLocked` and `showCookies`. */
  datatype Gate = Gate(locked: bool, showCookies: bool)

  /** What the startup effect does to the flags: it may only clear the lock and
      only raise the banner. */
  function EffectGate(storage: map<string, string>, g: Gate): (after: Gate)
    ensures after.locked <==> g.locked && !StoredTrue(storage, UnlockKey)
    ensures after.showCookies <==> g.showCookies || !StoredTrue(storage, CookiesKey)
  {
    var locked := if GetItem(storage, UnlockKey) == Some("true") then false else g.locked;
    var showCookies := if GetItem(storage, CookiesKey) != Some("true") then true else g.showCookies;
    Gate(locked, showCookies)
  }

  /** With the store unchanged, running the effect again changes nothing. */
  lemma EffectIdempotent(storage: map<string, string>, g: Gate)
    ensures EffectGate(storage, EffectGate(storage, g)) == EffectGate(storage, g)
  {
  }

  /** Once "true" is stored under a key, a re-run of the effect neither locks again
      nor shows the banner again. */
  lemma StoredFlagsAreFinal(storage: map<string, string>, g: Gate)
    ensures !EffectGate(storage[UnlockKey := "true"], g).locked
    ensures !EffectGate(storage[CookiesKey := "true"], Gate(g.locked, false)).showCookies
  {
  }

  /** The `dir` attribute written by the effect. */
  datatype Direction = Rtl | Ltr

  function TextDirection(lang: Language): (dir: Direction)
    ensures dir == Rtl <==> AnalysisForm.IsRtl(lang)
    ensures dir == Ltr <==> lang == En
  {
    if lang == Ar || lang == He then Rtl else Ltr
  }

  /** A request started by `handleAnalyze`, with the language its closure saw. */
  datatype PendingAnalysis = PendingAnalysis(username: string, niche: string, platform: Platform, lang: Language)

  class AppState {
    var lang: Language
    var result: Option<AnalysisResult>
    var loading: bool
    var error: Option<string>
    var isLocked: bool
    var showCookies: bool
    /** The browser's `localStorage`. */
    var storage: map<string, string>
    /** `translations[lang].error_msg`; the translation table is opaque here. */
    const errorText: Language -> string

    /** Each flag agrees with what has been stored: the app is only unlocked once
        "true" is stored under the unlock key, and the banner is only up while the
        consent key does not hold "true". */
    ghost predicate Valid()
      reads this
    {
      (!isLocked ==> StoredTrue(storage, UnlockKey)) &&
      (showCookies ==> !StoredTrue(storage, CookiesKey))
    }

    /** The request lifecycle as the user interface keeps it: a result is never
        shown together with a running request or an error, and while a request
        runs there is neither a result nor an error. */
    ghost predicate Exclusive()
      reads this
    {
      (result.Some? ==> !loading && error == None) &&
      (loading ==> result == None && error == None)
    }

    function Flags(): Gate
      reads this
    {
      Gate(isLocked, showCookies)
    }

    /** The state of the first render, before the effect has run. */
    constructor (stored: map<string, string>, errorText: Language -> string)
      ensures Valid() && Exclusive()
      ensures lang == Ar && result == None && !loading && error == None
      ensures isLocked && !showCookies
      ensures storage == stored && this.errorText == errorText
    {
      lang := Ar;
      result := None;
      loading := false;
      error := None;
      isLocked := true;
      showCookies := false;
      storage := stored;
      this.errorText := errorText;
    }

    /** The `useEffect` body: read both keys and adjust the flags. */
    method RunEffect()
      requires Valid()
      modifies this
      ensures Valid()
      ensures Flags() == EffectGate(storage, old(Flags()))
      ensures isLocked <==> !StoredTrue(storage, UnlockKey)
      ensures showCookies <==> !StoredTrue(storage, CookiesKey)
      ensures lang == old(lang) && result == old(result) && loading == old(loading)
      ensures error == old(error) && storage == old(storage)
    {
      var unlocked := GetItem(storage, UnlockKey);
      if unlocked == Some("true") {
        isLocked := false;
      }
      var cookiesAccepted := GetItem(storage, CookiesKey);
      if cookiesAccepted != Some("true") {
        showCookies := true;
      }
    }

    /** A language button: `setLang`, after which the effect runs again only if
        the language actually changed. */
    method SelectLanguage(choice: Language)
      requires Valid()
      modifies this
      ensures Valid()
      ensures lang == choice
      ensures Flags() == if choice == old(lang) then old(Flags()) else EffectGate(storage, old(Flags()))
      ensures result == old(result) && loading == old(loading) && error == old(error)
      ensures storage == old(storage)
    {
      var changed := choice != lang;
      lang := choice;
      if changed {
        RunEffect();
      }
    }

    /** `handleUnlock`: persist the unlock, then clear the lock. */
    method HandleUnlock()
      requires Valid()
      modifies this
      ensures Valid()
      ensures storage == old(storage)[UnlockKey := "true"] && !isLocked
      ensures showCookies == old(showCookies) && lang == old(lang) && result == old(result)
      ensures loading == old(loading) && error == old(error)
    {
      storage := storage[UnlockKey := "true"];
      isLocked := false;
    }

    /** `handleCookieAccept`: persist the consent, then hide the banner. */
    method HandleCookieAccept()
      requires Valid()
      modifies this
      ensures Valid()
      ensures storage == old(storage)[CookiesKey := "true"] && !showCookies
      ensures isLocked == old(isLocked) && lang == old(lang) && result == old(result)
      ensures loading == old(loading) && error == old(error)
    {
      storage := storage[CookiesKey := "true"];
      showCookies := false;
    }

    /** The synchronous start of `handleAnalyze`; `result` is kept. */
    method StartAnalyze(username: string, niche: string, platform: Platform) returns (pending: PendingAnalysis)
      requires Valid()
      modifies this
      ensures Valid()
      ensures loading && error == None
      ensures pending == PendingAnalysis(username, niche, platform, lang)
      ensures result == old(result) && lang == old(lang) && Flags() == old(Flags()) && storage == old(storage)
    {
      loading := true;
      error := None;
      pending := PendingAnalysis(username, niche, platform, lang);
    }

    /** The end of `handleAnalyze` once the service call has settled: store the
        data, or the localized error message of the language the request started
        in, and stop loading. No check is made that this request is still current. */
    method FinishAnalyze(pending: PendingAnalysis, outcome: Result<AnalysisResult, GeminiService.Error>)
      requires Valid()
      modifies this
      ensures Valid()
      ensures !loading
      ensures outcome.Success? ==> result == Some(outcome.value) && error == old(error)
      ensures outcome.Failure? ==> result == old(result) && error == Some(errorText(pending.lang))
      ensures lang == old(lang) && Flags() == old(Flags()) && storage == old(storage)
    {
      match outcome {
        case Success(data) =>
          result := Some(data);
        case Failure(_) =>
          error := Some(errorText(pending.lang));
      }
      loading := false;
    }

    /** `handleAnalyze` run to completion without anything interleaved. */
    method HandleAnalyze(
      username: string, niche: string, platform: Platform,
      send: GeminiService.Request -> Result<Option<string>, GeminiService.Error>,
      parse: string -> Result<AnalysisResult, GeminiService.Error>)
      requires Valid()
      modifies this
      ensures Valid()
      ensures !loading
      ensures var r := GeminiService.AnalyzeProfile(username, niche, platform, old(lang), send, parse);
        (r.Success? ==> result == Some(r.value) && error == None) &&
        (r.Failure? ==> result == old(result) && error == Some(errorText(old(lang))))
      ensures lang == old(lang) && Flags() == old(Flags()) && storage == old(storage)
    {
      var pending := StartAnalyze(username, niche, platform);
      var outcome := GeminiService.AnalyzeProfile(pending.username, pending.niche, pending.platform, pending.lang, send, parse);
      FinishAnalyze(pending, outcome);
    }

    /** `handleReset`: drop the result and the error, nothing else. */
    method HandleReset()
      requires Valid()
      modifies this
      ensures Valid()
      ensures result == None && error == None
      ensures loading == old(loading) && lang == old(lang) && Flags() == old(Flags()) && storage == old(storage)
    {
      result := None;
      error := None;
    }

    /** Pressing submit on the rendered form: a disabled button does nothing, an
        enabled one runs `handleSubmit`, which starts a request when its guard
        holds. A request starts only when none is running. */
    method SubmitFromForm(form: AnalysisForm.FormState) returns (pending: Option<PendingAnalysis>)
      requires Valid() && Exclusive()
      requires ShowsForm()
      modifies this
      ensures Valid() && Exclusive()
      ensures pending.Some? <==> !old(loading) && AnalysisForm.CanSubmit(form.username, form.niche)
      ensures pending.Some? ==> pending.value == PendingAnalysis(form.username, form.niche, form.platform, lang)
      ensures pending.Some? ==> loading && result == None && error == None
      ensures pending.None? ==> loading == old(loading) && result == old(result) && error == old(error)
      ensures lang == old(lang) && Flags() == old(Flags()) && storage == old(storage)
    {
      pending := None;
      if !form.Disabled(loading) {
        var call := form.HandleSubmit();
        if call.Some? {
          var started := StartAnalyze(call.value.username, call.value.niche, call.value.platform);
          pending := Some(started);
        }
      }
    }

    /** The running request settles: the lifecycle stays consistent on either outcome. */
    method Settle(pending: PendingAnalysis, outcome: Result<AnalysisResult, GeminiService.Error>)
      requires Valid() && Exclusive()
      requires loading
      modifies this
      ensures Valid() && Exclusive()
      ensures !loading
      ensures outcome.Success? ==> result == Some(outcome.value) && error == None
      ensures outcome.Failure? ==> result == None && error == Some(errorText(pending.lang))
      ensures lang == old(lang) && Flags() == old(Flags()) && storage == old(storage)
    {
      FinishAnalyze(pending, outcome);
    }

    /** The reset button of the results view: back to the form, with no error. */
    method ResetFromResults()
      requires Valid() && Exclusive()
      requires ShowsResults()
      modifies this
      ensures Valid() && Exclusive()
      ensures ShowsForm() && !ShowsErrorBanner() && !loading
      ensures lang == old(lang) && Flags() == old(Flags()) && storage == old(storage)
    {
      HandleReset();
    }

    /** `{isLocked && <LockOverlay/>}` */
    function ShowsLockOverlay(): (shown: bool)
      reads this
      ensures shown <==> isLocked
    {
      isLocked
    }

    /** `{showCookies && !isLocked && <CookieBanner/>}`: never together with the overlay. */
    function ShowsCookieBanner(): (shown: bool)
      reads this
      ensures shown ==> !ShowsLockOverlay()
      ensures shown <==> showCookies && !ShowsLockOverlay()
    {
      showCookies && !isLocked
    }

    /** The main content is blurred and closed to the pointer exactly while the overlay is up. */
    function ContentBlurred(): (blurred: bool)
      reads this
      ensures blurred <==> ShowsLockOverlay()
    {
      isLocked
    }

    /** `!result`: the hero, the form and the error slot. */
    function ShowsForm(): (shown: bool)
      reads this
      ensures shown <==> result == None
    {
      !result.Some?
    }

    /** `{error && ...}` inside the form branch: a non-empty error above the form. */
    function ShowsErrorBanner(): (shown: bool)
      reads this
      ensures shown ==> ShowsForm()
      ensures shown <==> result == None && error.Some? && error.value != ""
    {
      ShowsForm() && error.Some? && error.value != ""
    }

    /** The other branch: the results view, shown exactly when the form is not. */
    function ShowsResults(): (shown: bool)
      reads this
      ensures shown <==> !ShowsForm()
      ensures shown ==> !ShowsErrorBanner()
    {
      result.Some?
    }
  }

  /** The first render of any page load shows the lock overlay, whatever is
      stored: only the startup effect can clear it. */
  method FirstRenderLocked(stored: map<string, string>, errorText: Language -> string) returns (shown: bool)
    ensures shown
  {
    var app := new AppState(stored, errorText);
    shown := app.ShowsLockOverlay();
  }

  /** After an unlock, a reload whose startup effect has run reads the stored flag
      back and does not show the lock overlay. */
  method ReloadAfterUnlock(stored: map<string, string>, errorText: Language -> string) returns (shown: bool)
    ensures !shown
  {
    var first := new AppState(stored, errorText);
    first.RunEffect();
    first.HandleUnlock();
    var second := new AppState(first.storage, errorText);
    second.RunEffect();
    shown := second.ShowsLockOverlay();
  }

  /** After accepting cookies, a reload of the page does not show the banner again. */
  method ReloadAfterCookieAccept(stored: map<string, string>, errorText: Language -> string) returns (shown: bool)
    ensures !shown
  {
    var first := new AppState(stored, errorText);
    first.RunEffect();
    first.HandleCookieAccept();
    var second := new AppState(first.storage, errorText);
    second.RunEffect();
    shown := second.ShowsCookieBanner();
  }
}

=== FILE: gemini_service.dfy ===
/** The audit client: the request it builds from the form's values and the
    branch it takes on the service's response. The network call itself is a
    parameter (`send`), and so is `JSON.parse` (`parse`). */
module GeminiService {
  import opened Wrappers
  import opened Types
  import opened Text
  import ResponseSchema

  /** A JavaScript `Error`, identified by its message. */
  datatype Error = Error(message: string)

  /** The arguments of `generateContent`. */
  datatype Request = Request(
    model: string,
    role: string,
    prompt: string,
    responseMimeType: string,
    responseSchema: ResponseSchema.Schema,
    systemInstruction: string,
    temperature: real)

  const NoDataMessage: string := "No data returned from Gemini."

  /** The language the service is told to answer in. */
  function LangName(language: Language): (name: string)
    ensures name == "Arabic" <==> language == Ar
    ensures name == "Hebrew" <==> language == He
    ensures name == "English" <==> language == En
  {
    match language
    case Ar => "Arabic"
    case He => "Hebrew"
    case En => "English"
  }

  /** The platform named in the prompt. */
  function PlatformName(platform: Platform): (name: string)
    ensures name == "Instagram" <==> platform == Instagram
    ensures name == "TikTok" <==> platform == TikTok
  {
    match platform
    case Instagram => "Instagram"
    case TikTok => "TikTok"
  }

  /** A JavaScript template literal: the fixed text pieces with one value
      between each pair of neighbouring pieces. */
  function Interpolate(pieces: seq<string>, values: seq<string>): string
    requires |pieces| == |values| + 1
  {
    if values == [] then pieces[0]
    else pieces[0] + values[0] + Interpolate(pieces[1..], values[1..])
  }

  /** Every interpolated value appears verbatim in the filled-in template. */
  lemma {:induction false} InterpolateContains(pieces: seq<string>, values: seq<string>, i: nat)
    requires |pieces| == |values| + 1
    requires i < |values|
    ensures IsSubstring(values[i], Interpolate(pieces, values))
  {
    var rest := Interpolate(pieces[1..], values[1..]);
    assert Interpolate(pieces, values) == pieces[0] + (values[0] + rest);
    if i == 0 {
      SubstringAtStart(values[0], rest);
    } else {
      InterpolateContains(pieces[1..], values[1..], i - 1);
      SubstringAfterPrefix(values[i], values[0], rest);
    }
    SubstringAfterPrefix(values[i], pieces[0], values[0] + rest);
  }

  /** The sum of the lengths of some strings. */
  function TotalLength(strings: seq<string>): nat
  {
    if strings == [] then 0 else |strings[0]| + TotalLength(strings[1..])
  }

  /** A filled-in template is exactly as long as its pieces and values together. */
  lemma {:induction false} InterpolateLength(pieces: seq<string>, values: seq<string>)
    requires |pieces| == |values| + 1
    ensures |Interpolate(pieces, values)| == TotalLength(pieces) + TotalLength(values)
  {
    if values != [] {
      InterpolateLength(pieces[1..], values[1..]);
    }
  }

  const Indent: string := "      "

  /** The text around the interpolations of `promptText`, line breaks and indentation included. */
  const PromptPieces: seq<string> := [
    "\n" + Indent + "You are an expert Social Media Strategist and Growth Hacker for ",
    ".\n" + Indent + "\n" + Indent + "User Context:\n" + Indent + "Username/Link: ",
    "\n" + Indent + "Niche/Description: ",
    "\n" + Indent + "Platform: ",
    "\n" + Indent + "\n" + Indent + "Task:\n" + Indent + "1. Analyze the potential growth bottlenecks for this niche on ",
    ".\n" + Indent + "2. Critique the Bio and Visuals based on best practices for ",
    " (e.g., reels vs photos, hooks, trends).\n" + Indent
      + "3. Identify why the account might not be growing (Shadowban risk, bad hooks, low retention, poor lighting, etc).\n"
      + Indent + "4. Provide actionable solutions tailored to ",
    " algorithms.\n" + Indent + "5. Output ONLY JSON.\n" + Indent + "6. IMPORTANT: All text in the JSON response MUST be in ",
    " language.\n    "
  ]

  /** The values interpolated into `promptText`, in order. */
  function PromptValues(username: string, niche: string, platform: Platform, language: Language): (values: seq<string>)
    ensures |values| + 1 == |PromptPieces|
  {
    var p := PlatformName(platform);
    [p, username, niche, p, p, p, p, LangName(language)]
  }

  /** The values add up to the username, the niche, five platform names and the language name. */
  lemma PromptValuesLength(username: string, niche: string, platform: Platform, language: Language)
    ensures TotalLength(PromptValues(username, niche, platform, language)) ==
      |username| + |niche| + 5 * |PlatformName(platform)| + |LangName(language)|
  {
    var p, l := PlatformName(platform), LangName(language);
    var v := PromptValues(username, niche, platform, language);
    assert v[7..][1..] == [];
    assert TotalLength(v[7..]) == |l|;
    assert v[6..][1..] == v[7..];
    assert TotalLength(v[6..]) == |p| + |l|;
    assert v[5..][1..] == v[6..];
    assert TotalLength(v[5..]) == 2 * |p| + |l|;
    assert v[4..][1..] == v[5..];
    assert TotalLength(v[4..]) == 3 * |p| + |l|;
    assert v[3..][1..] == v[4..];
    assert TotalLength(v[3..]) == 4 * |p| + |l|;
    assert v[2..][1..] == v[3..];
    assert TotalLength(v[2..]) == |niche| + 4 * |p| + |l|;
    assert v[1..][1..] == v[2..];
    assert TotalLength(v[1..]) == |username| + |niche| + 4 * |p| + |l|;
  }

  /** `promptText`: nothing is dropped or added around the interpolated values,
      and the platform name is interpolated five times. */
  function PromptText(username: string, niche: string, platform: Platform, language: Language): (prompt: string)
    ensures |prompt| == TotalLength(PromptPieces) + |username| + |niche|
      + 5 * |PlatformName(platform)| + |LangName(language)|
  {
    var values := PromptValues(username, niche, platform, language);
    InterpolateLength(PromptPieces, values);
    PromptValuesLength(username, niche, platform, language);
    Interpolate(PromptPieces, values)
  }

  /** The prompt quotes the username and the niche verbatim and names the platform
      and the answer language. */
  lemma PromptMentions(username: string, niche: string, platform: Platform, language: Language)
    ensures IsSubstring(username, PromptText(username, niche, platform, language))
    ensures IsSubstring(niche, PromptText(username, niche, platform, language))
    ensures IsSubstring(PlatformName(platform), PromptText(username, niche, platform, language))
    ensures IsSubstring(LangName(language), PromptText(username, niche, platform, language))
  {
    var values := PromptValues(username, niche, platform, language);
    InterpolateContains(PromptPieces, values, 0);
    InterpolateContains(PromptPieces, values, 1);
    InterpolateContains(PromptPieces, values, 2);
    InterpolateContains(PromptPieces, values, 7);
  }

  const InstructionPreamble: string := "You are a professional Social Media Auditor. Respond strictly in "

  function SystemInstruction(language: Language): (instruction: string)
    ensures |instruction| == |InstructionPreamble| + |LangName(language)| + 1
    ensures instruction[..|InstructionPreamble|] == InstructionPreamble
    ensures instruction[|InstructionPreamble|..|instruction| - 1] == LangName(language)
    ensures instruction[|instruction| - 1] == '.'
  {
    var pieces, values := [InstructionPreamble, "."], [LangName(language)];
    assert Interpolate(pieces[1..], values[1..]) == ".";
    Interpolate(pieces, values)
  }

  /** The system instruction names the answer language, and different languages
      give different instructions. */
  lemma SystemInstructionDeterminesLanguage(a: Language, b: Language)
    ensures IsSubstring(LangName(a), SystemInstruction(a))
    ensures SystemInstruction(a) == SystemInstruction(b) ==> a == b
  {
    InterpolateContains([InstructionPreamble, "."], [LangName(a)], 0);
    var n := |InstructionPreamble|;
    if SystemInstruction(a) == SystemInstruction(b) {
      assert SystemInstruction(a)[n] == LangName(a)[0];
      assert SystemInstruction(b)[n] == LangName(b)[0];
    }
  }

  /** The request `analyzeProfileWithGemini` hands to `generateContent`. */
  function BuildRequest(username: string, niche: string, platform: Platform, language: Language): (req: Request)
    ensures req.prompt == PromptText(username, niche, platform, language)
    ensures req.systemInstruction == SystemInstruction(language)
    ensures req.responseSchema == ResponseSchema.AnalysisSchema
    ensures req.responseMimeType == "application/json" && req.temperature == 0.7
    ensures req.model == "gemini-3-flash-preview" && req.role == "user"
  {
    Request("gemini-3-flash-preview", "user", PromptText(username, niche, platform, language),
      "application/json", ResponseSchema.AnalysisSchema, SystemInstruction(language), 0.7)
  }

  /** The branch on `response.text`: an absent or empty text throws, anything else
      is handed to the parser, whose result or error is passed on. */
  function HandleResponse(text: Option<string>, parse: string -> Result<AnalysisResult, Error>): (r: Result<AnalysisResult, Error>)
    ensures text == None || text == Some("") ==> r == Failure(Error(NoDataMessage))
    ensures text.Some? && text.value != "" ==> r == parse(text.value)
  {
    match text
    case Some(t) => if t != "" then parse(t) else Failure(Error(NoDataMessage))
    case None => Failure(Error(NoDataMessage))
  }

  /** `analyzeProfileWithGemini`: build the request, send it, and branch on the
      response. An error from the call is rethrown unchanged. */
  function AnalyzeProfile(
    username: string, niche: string, platform: Platform, language: Language,
    send: Request -> Result<Option<string>, Error>,
    parse: string -> Result<AnalysisResult, Error>): (r: Result<AnalysisResult, Error>)
    ensures send(BuildRequest(username, niche, platform, language)).Failure? ==>
      r == Failure(send(BuildRequest(username, niche, platform, language)).error)
    ensures send(BuildRequest(username, niche, platform, language)).Success? ==>
      r == HandleResponse(send(BuildRequest(username, niche, platform, language)).value, parse)
    ensures r.Success? ==>
      exists text :: send(BuildRequest(username, niche, platform, language)) == Success(Some(text))
        && text != "" && parse(text) == r
  {
    var response := send(BuildRequest(username, niche, platform, language));
    match response
    case Failure(e) => Failure(e)
    case Success(text) => HandleResponse(text, parse)
  }
}

=== FILE: response_schema.dfy ===
/** The structured-output schema sent with every audit request, the JSON
    values it constrains, and the JSON form of an `AnalysisResult`. */
module ResponseSchema {
  import opened Wrappers
  import opened Types

  /** A parsed JSON value. Objects are maps, as `JSON.parse` keeps one value per key. */
  datatype Json =
    | JNull
    | JBool(b: bool)
    | JNumber(n: real)
    | JString(s: string)
    | JArray(elems: seq<Json>)
    | JObject(members: map<string, Json>)

  /** A schema node of the generation service: OBJECT, ARRAY, STRING or NUMBER. */
  datatype Schema =
    | SObject(properties: seq<Property>, required: seq<string>)
    | SArray(items: Schema, description: Option<string>)
    | SString(description: Option<string>, enumValues: seq<string>)
    | SNumber(description: Option<string>)

  datatype Property = Property(name: string, schema: Schema)

  /** The names of a list of properties, in order. */
  function Names(properties: seq<Property>): (names: seq<string>)
    ensures |names| == |properties|
    ensures forall k :: 0 <= k < |properties| ==> names[k] == properties[k].name
  {
    if properties == [] then [] else [properties[0].name] + Names(properties[1..])
  }

  /** Every object node lists among its required names only properties it declares. */
  predicate RequiredDeclared(s: Schema)
    decreases s
  {
    match s
    case SObject(properties, required) =>
      (forall name :: name in required ==> name in Names(properties)) &&
      (forall k :: 0 <= k < |properties| ==> RequiredDeclared(properties[k].schema))
    case SArray(items, _) => RequiredDeclared(items)
    case SString(_, _) => true
    case SNumber(_) => true
  }

  /** A JSON value meets a schema: the right kind of value, every required member
      present, every present declared member conforming, every string in the enum
      when there is one. Undeclared members are not constrained. */
  predicate Conforms(j: Json, s: Schema)
    decreases s
  {
    match s
    case SNumber(_) => j.JNumber?
    case SString(_, allowed) => j.JString? && (allowed == [] || j.s in allowed)
    case SArray(items, _) =>
      j.JArray? && forall k :: 0 <= k < |j.elems| ==> Conforms(j.elems[k], items)
    case SObject(properties, required) =>
      j.JObject? &&
      (forall name :: name in required ==> name in j.members) &&
      (forall k :: 0 <= k < |properties| ==>
        properties[k].name in j.members ==> Conforms(j.members[properties[k].name], properties[k].schema))
  }

  const SeverityValues: seq<string> := ["high", "medium", "low"]

  const ProfileAuditSchema: Schema := SObject(
    [ Property("bio_check", SString(Some("Critique of the bio."), [])),
      Property("visual_coherence", SString(Some("Critique of the visual feed style or video consistency."), [])),
      Property("content_strategy", SString(Some("Critique of the implied content strategy."), [])) ],
    ["bio_check", "visual_coherence", "content_strategy"])

  const IssueSchema: Schema := SObject(
    [ Property("title", SString(None, [])),
      Property("description", SString(None, [])),
      Property("severity", SString(None, SeverityValues)) ],
    ["title", "description", "severity"])

  const ActionItemSchema: Schema := SObject(
    [ Property("step", SString(Some("The action to take."), [])),
      Property("details", SString(Some("How to do it."), [])) ],
    ["step", "details"])

  /** The `analysisSchema` constant of the service. */
  const AnalysisSchema: Schema := SObject(
    [ Property("score", SNumber(Some("A score from 0 to 100 representing profile quality."))),
      Property("summary", SString(Some("A short, punchy summary of why the account isn't growing."), [])),
      Property("profile_audit", ProfileAuditSchema),
      Property("problems", SArray(IssueSchema, Some("List of specific problems stopping growth."))),
      Property("solutions", SArray(ActionItemSchema, Some("Actionable steps to fix the problems."))),
      Property("hashtags", SArray(SString(None, []), Some("5-10 recommended hashtags based on the niche."))) ],
    ["score", "summary", "profile_audit", "problems", "solutions", "hashtags"])

  /** The severity enum admits exactly the three severity literals. */
  lemma SeverityEnumIsSeverity(code: string)
    ensures code in SeverityValues <==> ParseSeverity(code).Some?
  {
  }

  /** An object node whose required list is its property names, and whose property
      schemas are well formed, is well formed. */
  lemma ObjectRequiredDeclared(properties: seq<Property>, required: seq<string>)
    requires Names(properties) == required
    requires forall k :: 0 <= k < |properties| ==> RequiredDeclared(properties[k].schema)
    ensures RequiredDeclared(SObject(properties, required))
  {
  }

  /** Every required name in the schema is a declared property of its object. */
  lemma AnalysisSchemaRequiredDeclared()
    ensures RequiredDeclared(AnalysisSchema)
  {
    ObjectRequiredDeclared(ProfileAuditSchema.properties, ProfileAuditSchema.required);
    ObjectRequiredDeclared(IssueSchema.properties, IssueSchema.required);
    ObjectRequiredDeclared(ActionItemSchema.properties, ActionItemSchema.required);
    var props := AnalysisSchema.properties;
    forall k | 0 <= k < |props|
      ensures RequiredDeclared(props[k].schema)
    {
    }
    ObjectRequiredDeclared(props, AnalysisSchema.required);
  }

  function IssueToJson(issue: Issue): Json
  {
    JObject(map[
      "title" := JString(issue.title),
      "description" := JString(issue.description),
      "severity" := JString(SeverityCode(issue.severity))])
  }

  function ActionItemToJson(item: ActionItem): Json
  {
    JObject(map["step" := JString(item.step), "details" := JString(item.details)])
  }

  function ProfileAuditToJson(audit: ProfileAudit): Json
  {
    JObject(map[
      "bio_check" := JString(audit.bioCheck),
      "visual_coherence" := JString(audit.visualCoherence),
      "content_strategy" := JString(audit.contentStrategy)])
  }

  /** The JSON text of an audit, as the service is asked to produce it. */
  function ResultToJson(r: AnalysisResult): Json
  {
    JObject(map[
      "score" := JNumber(r.score),
      "summary" := JString(r.summary),
      "profile_audit" := ProfileAuditToJson(r.profileAudit),
      "problems" := JArray(seq(|r.problems|, k requires 0 <= k < |r.problems| => IssueToJson(r.problems[k]))),
      "solutions" := JArray(seq(|r.solutions|, k requires 0 <= k < |r.solutions| => ActionItemToJson(r.solutions[k]))),
      "hashtags" := JArray(seq(|r.hashtags|, k requires 0 <= k < |r.hashtags| => JString(r.hashtags[k])))])
  }

  lemma IssueConforms(issue: Issue)
    ensures Conforms(IssueToJson(issue), IssueSchema)
  {
  }

  lemma ProfileAuditConforms(audit: ProfileAudit)
    ensures Conforms(ProfileAuditToJson(audit), ProfileAuditSchema)
  {
  }

  /** The schema admits every result: each `AnalysisResult`, written as JSON,
      conforms to `analysisSchema`, and its members are the required ones. */
  lemma ResultConformsToSchema(r: AnalysisResult)
    ensures Conforms(ResultToJson(r), AnalysisSchema)
    ensures ResultToJson(r).members.Keys == set name | name in AnalysisSchema.required
  {
    var j := ResultToJson(r);
    var props := AnalysisSchema.properties;
    forall k | 0 <= k < |props| && props[k].name in j.members
      ensures Conforms(j.members[props[k].name], props[k].schema)
    {
      if k == 2 {
        ProfileAuditConforms(r.profileAudit);
      } else if k == 3 {
        var problems := j.members["problems"];
        forall i | 0 <= i < |problems.elems|
          ensures Conforms(problems.elems[i], IssueSchema)
        {
          IssueConforms(r.problems[i]);
        }
      } else if k == 4 {
        var solutions := j.members["solutions"];
        forall i | 0 <= i < |solutions.elems|
          ensures Conforms(solutions.elems[i], ActionItemSchema)
        {
        }
      }
    }
  }
}

=== FILE: results.dfy ===
/** The pure helpers of the result view: score colours, the score ring, the
    severity badge, solution numbering and the hashtag display. */
module Results {
  import opened Types

  /** The text colour of the score number. */
  function ScoreColor(score: real): (cls: string)
    ensures cls == "text-emerald-400" <==> score >= 80.0
    ensures cls == "text-yellow-400" <==> 50.0 <= score < 80.0
    ensures cls == "text-red-400" <==> score < 50.0
  {
    if score >= 80.0 then "text-emerald-400"
    else if score >= 50.0 then "text-yellow-400"
    else "text-red-400"
  }

  /** The stroke colour of the score ring. */
  function ScoreStroke(score: real): (cls: string)
    ensures cls == "text-emerald-500" <==> score >= 80.0
    ensures cls == "text-yellow-500" <==> 50.0 <= score < 80.0
    ensures cls == "text-red-500" <==> score < 50.0
  {
    if score >= 80.0 then "text-emerald-500"
    else if score >= 50.0 then "text-yellow-500"
    else "text-red-500"
  }

  /** The number and the ring always show the same colour band. */
  lemma ColorMatchesStroke(score: real)
    ensures ScoreColor(score) == "text-emerald-400" <==> ScoreStroke(score) == "text-emerald-500"
    ensures ScoreColor(score) == "text-yellow-400" <==> ScoreStroke(score) == "text-yellow-500"
    ensures ScoreColor(score) == "text-red-400" <==> ScoreStroke(score) == "text-red-500"
  {
  }

  /** The dash pattern length of the score ring. */
  const Circumference: real := 440.0

  /** `strokeDashoffset`: the unfilled part of the ring for a score out of 100. */
  function RingOffset(score: real): (offset: real)
    ensures offset == Circumference * (100.0 - score) / 100.0
    ensures 0.0 <= score <= 100.0 ==> 0.0 <= offset <= Circumference
  {
    Circumference - (Circumference * score) / 100.0
  }

  /** An empty score leaves the ring empty, a full one fills it, and a higher score
      never shows less of the ring. */
  lemma RingOffsetShape(a: real, b: real)
    requires a <= b
    ensures RingOffset(0.0) == Circumference && RingOffset(100.0) == 0.0
    ensures RingOffset(a) >= RingOffset(b)
  {
  }

  /** The translated badge texts `t.high`, `t.medium` and `t.low`. */
  datatype SeverityLabels = SeverityLabels(high: string, medium: string, low: string)

  function SeverityLabel(severity: Severity, t: SeverityLabels): (badge: string)
    ensures severity == High ==> badge == t.high
    ensures severity == Medium ==> badge == t.medium
    ensures severity != High && severity != Medium ==> badge == t.low
  {
    if severity == High then t.high else if severity == Medium then t.medium else t.low
  }

  /** One problem card. */
  datatype ProblemCard = ProblemCard(title: string, badge: string, description: string)

  /** `data.problems.map(...)`: one card per problem, in order. */
  function ProblemCards(problems: seq<Issue>, t: SeverityLabels): (cards: seq<ProblemCard>)
    ensures |cards| == |problems|
    ensures forall k :: 0 <= k < |problems| ==>
      cards[k] == ProblemCard(problems[k].title, SeverityLabel(problems[k].severity, t), problems[k].description)
  {
    if problems == [] then []
    else
      var p := problems[0];
      [ProblemCard(p.title, SeverityLabel(p.severity, t), p.description)] + ProblemCards(problems[1..], t)
  }

  /** One solution card with its displayed number. */
  datatype SolutionCard = SolutionCard(number: nat, step: string, details: string)

  /** `data.solutions.map(...)` with `idx + 1`, for the solutions from index `first - 1` on. */
  function NumberFrom(solutions: seq<ActionItem>, first: nat): (cards: seq<SolutionCard>)
    ensures |cards| == |solutions|
    ensures forall k :: 0 <= k < |solutions| ==>
      cards[k] == SolutionCard(first + k, solutions[k].step, solutions[k].details)
  {
    if solutions == [] then []
    else [SolutionCard(first, solutions[0].step, solutions[0].details)] + NumberFrom(solutions[1..], first + 1)
  }

  /** The solutions are numbered 1..n in list order. */
  function SolutionCards(solutions: seq<ActionItem>): (cards: seq<SolutionCard>)
    ensures |cards| == |solutions|
    ensures forall k :: 0 <= k < |solutions| ==> cards[k].number == k + 1
    ensures forall k :: 0 <= k < |solutions| ==>
      cards[k].step == solutions[k].step && cards[k].details == solutions[k].details
  {
    NumberFrom(solutions, 1)
  }

  /** The index of the first `c` in `s`. */
  function IndexOf(s: string, c: char): (k: nat)
    requires c in s
    ensures k < |s| && s[k] == c && c !in s[..k]
  {
    if s[0] == c then 0 else 1 + IndexOf(s[1..], c)
  }

  /** `s.replace(c, '')` with a one-character search string: only the first `c` goes. */
  function RemoveFirst(s: string, c: char): (r: string)
    ensures c !in s ==> r == s
    ensures c in s ==> r == s[..IndexOf(s, c)] + s[IndexOf(s, c) + 1..]
  {
    if s == [] then []
    else if s[0] == c then s[1..]
    else
      var rest := RemoveFirst(s[1..], c);
      if c in s then
        assert c in s[1..];
        var j := IndexOf(s[1..], c);
        assert IndexOf(s, c) == j + 1;
        assert s[..j + 1] == [s[0]] + s[1..][..j];
        assert s[j + 2..] == s[1..][j + 1..];
        [s[0]] + rest
      else
        [s[0]] + rest
  }

  /** A hashtag as displayed: `'#' + tag.replace('#', '')`. */
  function DisplayTag(tag: string): (shown: string)
    ensures |tag| > 0 && tag[0] == '#' ==> shown == tag
    ensures '#' !in tag ==> shown == "#" + tag
  {
    "#" + RemoveFirst(tag, '#')
  }

  /** The displayed tag starts with `#`; a tag without `#` just gains one; a tag with
      `#` loses its first one to the prefix, so its count of `#` is unchanged. */
  lemma DisplayTagShape(tag: string)
    ensures |DisplayTag(tag)| > 0 && DisplayTag(tag)[0] == '#'
    ensures '#' !in tag ==> DisplayTag(tag) == "#" + tag
    ensures '#' in tag ==> multiset(DisplayTag(tag))['#'] == multiset(tag)['#']
    ensures '#' in tag ==> |DisplayTag(tag)| == |tag|
  {
    if '#' in tag {
      var k := IndexOf(tag, '#');
      assert tag == tag[..k] + [tag[k]] + tag[k + 1..];
      calc {
        multiset(tag);
        multiset(tag[..k]) + multiset{'#'} + multiset(tag[k + 1..]);
        multiset("#" + RemoveFirst(tag, '#'));
      }
    }
  }

  /** `data.hashtags.map(...)`: one display tag per hashtag, in order. */
  function HashtagChips(hashtags: seq<string>): (chips: seq<string>)
    ensures |chips| == |hashtags|
    ensures forall k :: 0 <= k < |hashtags| ==> chips[k] == DisplayTag(hashtags[k])
  {
    if hashtags == [] then [] else [DisplayTag(hashtags[0])] + HashtagChips(hashtags[1..])
  }
}

=== FILE: text.dfy ===
/** Facts about strings used by the request builder and the result view. */
module Text {
  /** `sub` occurs in `s` starting at index `k`. */
  predicate OccursAt(sub: string, s: string, k: int)
  {
    0 <= k <= |s| - |sub| && s[k..k + |sub|] == sub
  }

  /** `sub` occurs in `s` as a contiguous run of characters. */
  ghost predicate IsSubstring(sub: string, s: string)
  {
    exists k :: OccursAt(sub, s, k)
  }

  /** A string occurs in any text that starts with it. */
  lemma SubstringAtStart(sub: string, rest: string)
    ensures IsSubstring(sub, sub + rest)
  {
    var s := sub + rest;
    assert s[0..|sub|] == sub;
    assert OccursAt(sub, s, 0);
  }

  /** An occurrence survives putting text in front: it moves right by |front|. */
  lemma SubstringAfterPrefix(sub: string, front: string, s: string)
    requires IsSubstring(sub, s)
    ensures IsSubstring(sub, front + s)
  {
    var k :| OccursAt(sub, s, k);
    var t := front + s;
    assert t[|front| + k..|front| + k + |sub|] == s[k..k + |sub|];
    assert OccursAt(sub, t, |front| + k);
  }
}

=== FILE: types.dfy ===
/** The value types of the application: languages, platforms and the audit result. */
module Types {
  import opened Wrappers

  /** The interface languages, written 'ar', 'en' and 'he' in the code. */
  datatype Language = Ar | En | He

  /** The social platforms, written 'instagram' and 'tiktok' in the code. */
  datatype Platform = Instagram | TikTok

  /** How serious a diagnosed problem is, written 'high', 'medium' and 'low'. */
  datatype Severity = High | Medium | Low

  datatype Issue = Issue(title: string, description: string, severity: Severity)

  datatype ActionItem = ActionItem(step: string, details: string)

  datatype ProfileAudit = ProfileAudit(bioCheck: string, visualCoherence: string, contentStrategy: string)

  /** The audit returned by the service. `score` is an unconstrained number:
      the 0..100 range is only a description in the response schema. */
  datatype AnalysisResult = AnalysisResult(
    score: real,
    summary: string,
    profileAudit: ProfileAudit,
    problems: seq<Issue>,
    solutions: seq<ActionItem>,
    hashtags: seq<string>)

  /** The string literal that stands for each language. */
  function LanguageCode(language: Language): string
  {
    match language
    case Ar => "ar"
    case En => "en"
    case He => "he"
  }

  /** The language a string literal stands for, if any. The code never parses a
      language; this function exists only to state, with `CodesRoundTrip`, that
      `Language` has exactly the literals 'ar', 'en' and 'he'. */
  function ParseLanguage(code: string): (language: Option<Language>)
    ensures language.Some? ==> LanguageCode(language.value) == code
  {
    if code == "ar" then Some(Ar)
    else if code == "en" then Some(En)
    else if code == "he" then Some(He)
    else None
  }

  function PlatformCode(platform: Platform): string
  {
    match platform
    case Instagram => "instagram"
    case TikTok => "tiktok"
  }

  /** The platform a string literal stands for, if any. Like `ParseLanguage`, it
      exists only to state that `Platform` has exactly 'instagram' and 'tiktok'. */
  function ParsePlatform(code: string): (platform: Option<Platform>)
    ensures platform.Some? ==> PlatformCode(platform.value) == code
  {
    if code == "instagram" then Some(Instagram)
    else if code == "tiktok" then Some(TikTok)
    else None
  }

  function SeverityCode(severity: Severity): string
  {
    match severity
    case High => "high"
    case Medium => "medium"
    case Low => "low"
  }

  function ParseSeverity(code: string): (severity: Option<Severity>)
    ensures severity.Some? ==> SeverityCode(severity.value) == code
  {
    if code == "high" then Some(High)
    else if code == "medium" then Some(Medium)
    else if code == "low" then Some(Low)
    else None
  }

  /** Each union type has exactly its listed literals: every literal parses
      back to its value, and nothing else parses. */
  lemma CodesRoundTrip(language: Language, platform: Platform, severity: Severity)
    ensures ParseLanguage(LanguageCode(language)) == Some(language)
    ensures ParsePlatform(PlatformCode(platform)) == Some(platform)
    ensures ParseSeverity(SeverityCode(severity)) == Some(severity)
  {
  }
}

=== FILE: wrappers.dfy ===
/** Option and Result values shared by the other modules. */
module Wrappers {
  /** A value that may be absent (JavaScript `null` / `undefined`). */
  datatype Option<+T> = None | Some(value: T)

  /** The outcome of an operation that can throw: a value, or the thrown error. */
  datatype Result<+T, +E> = Success(value: T) | Failure(error: E)
}
